=== FILE: README.md ===
# Trivia API and Coffee Shop drinks API — a Dafny model

This project models the request handlers of two small Flask services backed by
SQLAlchemy tables:

- the **trivia API**: paginated question listing, question deletion, question
  search and creation (one POST route), questions by category, the quiz
  endpoint that serves a random unseen question, and category creation, plus the
  `Question` and `Category` records and their `format()` dictionaries;
- the **coffee shop API**: drink listing (short and long form), drink creation,
  drink update (PATCH) and drink deletion.

Each handler is a pure function from the request fields and the store (the
tables, as maps from primary key to columns) to a response and the store after
the request. `abort(code)` is a response carrying the status code; an exception
raised inside a trivia handler's `try` block is an `Attempt` that `ExceptAll`
turns into the handler's `except` status; the coffee shop handlers return their
`abort` status directly. Things the handlers get from outside — the key
the database assigns to a new row, the index `random.choice` picks — are
parameters.

Modules:

| file | module | contents |
|---|---|---|
| wrappers.dfy | `Wrappers` | `Option` |
| pyslice.dfy | `PySlice` | Python's `xs[start:end]` with negative and out-of-range bounds |
| text.dfy | `Text` | truthiness of an optional string, ASCII lower-casing, substring search, `ILIKE '%term%'` |
| json.dfy | `Json` | JSON values, dict lookup, `json.dumps` with its default escaping and separators |
| table.dfy | `Table` | a keyed table: id-ordered listing, find, insert, delete, update, filter |
| models.dfy | `Models` | `Question`, `Category`, their `format()` and the round trip back |
| trivia.dfy | `Trivia` | the trivia handlers and pagination |
| coffee.dfy | `CoffeeShop` | the drink handlers |

## Model

| member | source | states |
|---|---|---|
| PySlice.Slice | projects/02_trivia_api/starter/backend/flaskr/__init__.py:225 | the slice is at most as long as the list and the window, and its entries are the list's entries from the normalised start on |
| PySlice.NonNegativeSlice | projects/02_trivia_api/starter/backend/flaskr/__init__.py:221-225 | with non-negative bounds the slice is the window up to the end of the list, empty when the start is past it |
| PySlice.NegativeSlice | projects/02_trivia_api/starter/backend/flaskr/__init__.py:221-225 | with negative bounds the slice counts back from the end of the list |
| Text.ContainsIffOccurs | projects/02_trivia_api/starter/backend/flaskr/__init__.py:97-98 | the scan finds the pattern exactly when the pattern occurs at some position of the text |
| Text.ILikeIgnoresCase | projects/02_trivia_api/starter/backend/flaskr/__init__.py:97-98 | the search ignores the case of ASCII letters in both the text and the term |
| Json.MemberAt | projects/02_trivia_api/starter/backend/flaskr/__init__.py:135 | looking a key up in a dict with distinct keys gives the value stored under it |
| Json.NatTextDigits | projects/03_coffee_shop_full_stack/starter_code/backend/src/api.py:151-154 | the decimal text of a number is non-empty, all digits, and reads back as the number |
| Json.DumpsPrintable | projects/03_coffee_shop_full_stack/starter_code/backend/src/api.py:85 | `json.dumps` output is printable ASCII (every other character is escaped) |
| Json.DumpsStartsWithKind | projects/03_coffee_shop_full_stack/starter_code/backend/src/api.py:85 | the JSON text is non-empty and its first character tells which kind of value it encodes |
| Json.DumpsIsNullIff | projects/03_coffee_shop_full_stack/starter_code/backend/src/api.py:122-127 | the JSON text is never empty, so always truthy, and is `null` exactly for `None` |
| Table.Rows | projects/02_trivia_api/starter/backend/flaskr/__init__.py:47 | the listing holds every row of the table exactly once, in ascending key order |
| Table.Find | projects/02_trivia_api/starter/backend/flaskr/__init__.py:65-66 | `one_or_none` finds a row exactly when the key is stored, and then the stored row |
| Table.Insert | projects/02_trivia_api/starter/backend/models.py:48-50 | insert adds the one new row and keeps every other row |
| Table.Delete | projects/02_trivia_api/starter/backend/models.py:55-57 | delete removes exactly the given key and keeps every other row |
| Table.Update | projects/02_trivia_api/starter/backend/models.py:52-53 | update stores the edited row under its key and keeps every other row |
| Table.DeleteUndoesInsert | projects/02_trivia_api/starter/backend/models.py:48-57 | deleting a freshly inserted row restores the table |
| Table.UpdateUnchangedIsNoOp | projects/02_trivia_api/starter/backend/models.py:52-53 | committing an unedited row changes nothing |
| Table.Filter | projects/02_trivia_api/starter/backend/flaskr/__init__.py:140-142 | the filtered list holds exactly the listed rows that satisfy the predicate |
| Table.FilterKeepsOrder | projects/02_trivia_api/starter/backend/flaskr/__init__.py:95-96 | filtering an id-ordered list leaves it id-ordered |
| Table.OrderedUnique | projects/02_trivia_api/starter/backend/flaskr/__init__.py:95-96 | two id-ordered lists with the same rows are equal |
| Table.FilterRowsIsRowsOfSelect | projects/02_trivia_api/starter/backend/flaskr/__init__.py:95-104 | filtering the ordered rows lists the matching sub-table in order, so its length is the number of matching rows |
| Models.FormatQuestion | projects/02_trivia_api/starter/backend/models.py:59-67 | `format()` is a dict with the keys id, question, answer, category, difficulty, rating in that order |
| Models.FormatCategory | projects/02_trivia_api/starter/backend/models.py:86-90 | `format()` is a dict with the keys id and type |
| Models.FormatQuestionRoundTrip | projects/02_trivia_api/starter/backend/models.py:59-67 | reading a question's `format()` back gives the same key and the same five columns |
| Models.FormatCategoryRoundTrip | projects/02_trivia_api/starter/backend/models.py:86-90 | reading a category's `format()` back gives the same key and type |
| Models.FormatQuestionInjective | projects/02_trivia_api/starter/backend/models.py:59-67 | different questions format to different dicts |
| Trivia.FormatAll | projects/02_trivia_api/starter/backend/flaskr/__init__.py:224 | one formatted entry per question |
| Trivia.Paginate | projects/02_trivia_api/starter/backend/flaskr/__init__.py:219-227 | a page has at most 10 entries, each the `format()` of one of the listed questions |
| Trivia.FormatAllSlice | projects/02_trivia_api/starter/backend/flaskr/__init__.py:224-225 | formatting then slicing is slicing then formatting |
| Trivia.PageWindow | projects/02_trivia_api/starter/backend/flaskr/__init__.py:219-227 | page p >= 1 is the questions from position (p-1)*10 to min(p*10, n), empty past the end |
| Trivia.PageZeroIsEmpty | projects/02_trivia_api/starter/backend/flaskr/__init__.py:220-225 | page 0 is always empty |
| Trivia.NegativePageCountsFromEnd | projects/02_trivia_api/starter/backend/flaskr/__init__.py:220-225 | a negative page takes its window counted back from the end of the list |
| Trivia.EveryQuestionOnItsPage | projects/02_trivia_api/starter/backend/flaskr/__init__.py:219-227 | question i is entry i % 10 of page i / 10 + 1, so the positive pages cover the list |
| Trivia.PageEntriesStored | projects/02_trivia_api/starter/backend/flaskr/__init__.py:224-225 | every entry of a page of stored rows with a property is the format of a stored row with that property |
| Trivia.CategoryDict | projects/02_trivia_api/starter/backend/flaskr/__init__.py:36-40 | the dict has a key for every listed category and maps it to that category's type |
| Trivia.GetCategoryList | projects/02_trivia_api/starter/backend/flaskr/__init__.py:36-40 | the dict has exactly the stored category keys and maps each to its type |
| Trivia.GetCategory | projects/02_trivia_api/starter/backend/flaskr/__init__.py:129-135 | a stored category gives its type (null when unset); a missing one aborts |
| Trivia.GetQuestions | projects/02_trivia_api/starter/backend/flaskr/__init__.py:45-59 | 404 exactly when the requested page is empty; otherwise that page of the id-ordered questions, the full count, and every stored category's key mapped to its type; nothing changes |
| Trivia.GetQuestionsByPage | projects/02_trivia_api/starter/backend/flaskr/__init__.py:45-59 | past the last page the answer is 404; otherwise the page holds 10 questions or the remainder, and the total is the full count |
| Trivia.DeleteQuestion | projects/02_trivia_api/starter/backend/flaskr/__init__.py:62-78 | an existing question is removed and nothing else changes; a missing one answers 422 with the store unchanged |
| Trivia.SearchQuestions | projects/02_trivia_api/starter/backend/flaskr/__init__.py:94-105 | the page is exactly the requested 10-question window of the id-ordered matches, each a stored question whose text contains the term ignoring case; the total is the number of such questions; nothing changes |
| Trivia.SearchWithoutMatches | projects/02_trivia_api/starter/backend/flaskr/__init__.py:94-105 | a term that matches nothing answers success with no questions and total 0 |
| Trivia.SearchFindsEveryMatch | projects/02_trivia_api/starter/backend/flaskr/__init__.py:94-105 | a matching question that is match `i` of the id-ordered matches is entry `i % 10` of the response for page `i / 10 + 1` |
| Trivia.CreateQuestion | projects/02_trivia_api/starter/backend/flaskr/__init__.py:107-126 | the new question is stored with the request's fields under the returned id, every other row is kept, the total is the old count plus one and the page is of the new table; a taken key answers 422 |
| Trivia.AddQuestion | projects/02_trivia_api/starter/backend/flaskr/__init__.py:83-126 | a truthy search term answers the requested page of matches and their count without changing the store; otherwise a free id gets a new question holding the request's fields under that id, and a taken id answers 422 with the store unchanged |
| Trivia.DeleteUndoesCreate | projects/02_trivia_api/starter/backend/flaskr/__init__.py:62-126 | deleting the question just created succeeds and restores the store |
| Trivia.CreatedQuestionFormat | projects/02_trivia_api/starter/backend/models.py:40-45 | the stored question's `format()` reads back as the new id with the request's fields verbatim |
| Trivia.QuestionsByCategory | projects/02_trivia_api/starter/backend/flaskr/__init__.py:138-152 | the answer is 404 exactly when the category is missing or the requested page of its id-ordered questions is empty; otherwise the response is that page, the total counts the category's questions and the current category is its type; nothing changes |
| Trivia.CategoryListsEveryQuestion | projects/02_trivia_api/starter/backend/flaskr/__init__.py:138-150 | a question that is number `i` of an existing category's id-ordered questions is entry `i % 10` of that category's page `i / 10 + 1` |
| Trivia.BitAnd | projects/02_trivia_api/starter/backend/flaskr/__init__.py:169 | `a & b` is at most each operand |
| Trivia.AllCategoriesTestIsIdZero | projects/02_trivia_api/starter/backend/flaskr/__init__.py:169-170 | the chained comparison holds exactly when the id is 0, whatever the number of previous questions |
| Trivia.QuizPool | projects/02_trivia_api/starter/backend/flaskr/__init__.py:169-174 | id 0 gives every question in id order; any other id gives exactly the stored questions of that category |
| Trivia.Unseen | projects/02_trivia_api/starter/backend/flaskr/__init__.py:177-180 | the selection is exactly the pool's questions whose ids are not among the previous ones |
| Trivia.ChooseUnseen | projects/02_trivia_api/starter/backend/flaskr/__init__.py:175-191 | a chosen question is in the pool and not previously asked; nothing changes |
| Trivia.PlayQuiz | projects/02_trivia_api/starter/backend/flaskr/__init__.py:158-193 | the answer is a stored question not previously asked and, for a non-zero id, of that category, or success false, or 422; a body without `quiz_category` or without its `id` answers 422; nothing changes |
| Trivia.QuizOutcomes | projects/02_trivia_api/starter/backend/flaskr/__init__.py:169-191 | the pool does not depend on the previous questions; id 0 pools every question; an empty pool answers 422; a non-empty pool answers status 200, with success false exactly when every pooled id was asked |
| Trivia.ChooseUnseenCanReturn | projects/02_trivia_api/starter/backend/flaskr/__init__.py:181-182 | each unseen question is the choice for some pick |
| Trivia.QuizCanReturnAnyUnseen | projects/02_trivia_api/starter/backend/flaskr/__init__.py:177-186 | every unseen question of the pool can be the one returned |
| Trivia.FormattedCategoryListed | projects/02_trivia_api/starter/backend/flaskr/__init__.py:205-206 | the format of every listed category appears in the formatted list |
| Trivia.InsertCategory | projects/02_trivia_api/starter/backend/flaskr/__init__.py:202-214 | the completed block lists the formats of the new table's categories in ascending id order, each once, the new one included |
| Trivia.AddCategory | projects/02_trivia_api/starter/backend/flaskr/__init__.py:196-216 | the new category is stored under the returned id with the request's type, the list and total grow by one, the list is the formats of the stored categories in ascending id order, the new one included, questions and other categories are kept; a taken key answers 422 |
| Trivia.CreatedCategoryFormat | projects/02_trivia_api/starter/backend/models.py:79-90 | the new category's `format()` reads back as the new id with the request's type verbatim |
| Trivia.AddedCategoryIsListed | projects/02_trivia_api/starter/backend/flaskr/__init__.py:129-135 | after adding, `getCategory` and `get_category_list` report the new category's type |
| CoffeeShop.GetDrinks | projects/03_coffee_shop_full_stack/starter_code/backend/src/api.py:33-43 | 404 exactly when there is no drink; otherwise every drink once in short form; nothing changes |
| CoffeeShop.GetDrinkDetails | projects/03_coffee_shop_full_stack/starter_code/backend/src/api.py:53-65 | 404 exactly when there is no drink; otherwise every drink once in long form; nothing changes |
| CoffeeShop.CreateDrink | projects/03_coffee_shop_full_stack/starter_code/backend/src/api.py:76-95 | the new drink is stored with the request's title and the JSON text of its recipe, the response lists only that drink, every other drink is kept; no body or a taken key answers 404 unchanged |
| CoffeeShop.CreatedRecipe | projects/03_coffee_shop_full_stack/starter_code/backend/src/api.py:85 | the stored recipe is non-empty printable ASCII and is `null` exactly when the recipe was missing or null |
| CoffeeShop.UpdateDrink | projects/03_coffee_shop_full_stack/starter_code/backend/src/api.py:111-137 | a missing id answers 404 and no body 400, both unchanged; otherwise the title is replaced only by a truthy one, the recipe always by the JSON text of the request's recipe, other drinks kept, and the response lists only the updated drink |
| CoffeeShop.EmptyPatchErasesRecipe | projects/03_coffee_shop_full_stack/starter_code/backend/src/api.py:121-127 | a PATCH naming neither field keeps the title and sets the recipe to `null` |
| CoffeeShop.UpdateIdempotent | projects/03_coffee_shop_full_stack/starter_code/backend/src/api.py:120-129 | sending the same PATCH twice leaves the same table as sending it once |
| CoffeeShop.UpdateWithStoredFieldsIsNoOp | projects/03_coffee_shop_full_stack/starter_code/backend/src/api.py:120-129 | a PATCH repeating the stored title and recipe changes nothing |
| CoffeeShop.PathKey | projects/03_coffee_shop_full_stack/starter_code/backend/src/api.py:151-154 | a path segment selects a key exactly when it is a non-empty run of decimal digits, and the key is not negative |
| CoffeeShop.PathKeyOfNatText | projects/03_coffee_shop_full_stack/starter_code/backend/src/api.py:151-154 | the decimal text of a key selects that key |
| CoffeeShop.PathKeyLeadingZero | projects/03_coffee_shop_full_stack/starter_code/backend/src/api.py:151-154 | a zero-padded digit run selects the same key as the unpadded run, so `007` selects drink 7 |
| CoffeeShop.DeleteDrink | projects/03_coffee_shop_full_stack/starter_code/backend/src/api.py:151-166 | status 200 exactly when the id names a stored drink; then that drink is removed, every other drink kept, and the body echoes the id as given; a missing one answers 404 unchanged |
| CoffeeShop.DeleteUndoesCreate | projects/03_coffee_shop_full_stack/starter_code/backend/src/api.py:151-166 | deleting the drink just created, by its id, succeeds and restores the table |
| CoffeeShop.CreateThenList | projects/03_coffee_shop_full_stack/starter_code/backend/src/api.py:53-65 | after a successful create the detail listing has one more drink and includes the new one |

## Left out

- Flask routing, JSON encoding of responses by `jsonify`, CORS headers and the error handlers' bodies: a response carries its status code and payload fields only.
- Authorisation: `requires_auth` and `AuthError` run before the coffee shop handlers; the auth module is not part of this model.
- Persistence: the SQLAlchemy session and the database are an in-memory map per table; commit failures other than a key collision are not modelled, so the 400 a failed `drink.update()` or `drink.delete()` commit would give does not occur.
- The key a database assigns to a new row is the `freshId` parameter; auto-increment is not modelled.
- Trivia.PlayQuiz: `random.choice` is the `pick` parameter, so the model states which question each pick returns, not the distribution.
- Trivia.PlayQuiz: a body without `previous_questions` makes `len(None)` raise before the `try`, a 500; the model takes the previous ids as a list and does not model that crash.
- Trivia.QuizPool: `Question.query.all()` and the category filter carry no `order_by`, so the database may return the pool in any order; the model pools in id order. Which question a given `pick` selects therefore depends on that order, but the set of questions a quiz can return does not.
- Trivia.AddQuestion: a request without a JSON body raises at `question.get` before the `try`, a 500; the model takes the body's fields as given. The same holds for `add_category` and `play_quiz`.
- Trivia.GetQuestions: the constant `current_category: None` of the body is not a field of the response.
- Models.QuestionFields: the `category` column is declared as text but holds category ids; the model stores an integer, so `Question.category == category` compares ids and `format()` reports the id as a number.
- Text.ILike: only ASCII letters are case-folded, and `%`, `_` and the default escape character `\` inside the search term are treated as ordinary characters, although `LIKE` gives them a special meaning.
- Json.Dumps: JSON values have no floating-point numbers; recipe, title and search values of other JSON kinds than the modelled ones are not represented (titles are text or absent).
- Trivia.CreateQuestion: question and answer are text or absent, and difficulty, category and rating are unbounded integers. The Integer columns are 32-bit, so a value such as 2^31 makes the commit raise and the handler answer 422; the model stores it instead. Request values of other JSON kinds are not represented.
- Trivia.PlayQuiz: the category id is an integer, so the model filters with the same value it tests against 0; the handler applies `int()` only to the test and filters with the raw value, so an id such as 2.5 tests as 2 and then matches no question. The previous questions are integer ids; a previous id sent as text never equals a question's id, so that question can be served again, which the model does not show.
- Trivia.AddCategory: the category type is text or absent; values of other JSON kinds are not represented.
- CoffeeShop.GetDrinks: `Drink.query.all()` has no ordering; the model lists drinks in key order. `Drink`, `short()` and `long()` live in the database models file, which is not part of this model, so a listing carries the rows and which projection the body shows, not the projected dicts.
- CoffeeShop.CreateDrink: column constraints of `Drink` (such as a unique or non-null title) are not part of this model; only a key collision makes the insert fail.
- CoffeeShop.PathKey: the DELETE route passes the id as text; only a plain run of decimal digits selects a key. How the database compares other texts (`+3`, `3.0`, `-1`) with the integer key is not modelled; they answer 404.
- `db_drop_and_create_all`, `setup_db`, the migration setup and the 500 error handler are setup code outside the handlers.

=== FILE: coffee.dfy ===
/** The coffee shop drink service. Each handler is a function from the request
    fields and the drinks table to the response and the table after the request.
    Authorisation (`requires_auth`) happens before a handler runs and is not part
    of this module. */
module CoffeeShop {

  import opened Wrappers
  import opened Json
  import opened Table
  import opened Text

  /** The columns of a drink: its title and its recipe, held as JSON text. */
  datatype DrinkFields = DrinkFields(title: Option<string>, recipe: string)

  type Drink = Row<DrinkFields>

  type Drinks = Table<DrinkFields>

  /** Which representation of each drink a listing shows: `short()` or `long()`. */
  datatype Projection = Short | Long

  /** A handler's response. `Abort(code)` is `abort(code)`; the others have status
      200 and `success: True`. `Deleted` echoes the path segment it was given. */
  datatype Response =
    | Abort(code: int)
    | DrinkList(projection: Projection, drinks: seq<Drink>)
    | Deleted(id: string)
  {
    function Status(): int {
      if Abort? then code else 200
    }
  }

  datatype Step = Step(response: Response, store: Drinks)

  /** The JSON body of a POST or PATCH as the handlers read it: `title` is `None`
      when absent, and an absent `recipe` reads as `null`, just as `data.get('recipe', None)`
      does. A request without a JSON body is `None` at the handler. */
  datatype DrinkBody = DrinkBody(title: Option<string>, recipe: Json)

  /* ---------- GET /drinks and GET /drinks-detail ---------- */

  function ListDrinks(t: Drinks, projection: Projection): Step {
    var drinks := Rows(t);
    if |drinks| == 0 then Step(Abort(404), t) else Step(DrinkList(projection, drinks), t)
  }

  /** `get_drinks`: 404 when there is no drink, otherwise every drink once in its
      short form. */
  function GetDrinks(t: Drinks): (r: Step)
    ensures r.store == t
    ensures r.response == Abort(404) <==> |t| == 0
    ensures r.response.Abort? || r.response.DrinkList?
    ensures r.response.DrinkList? ==>
              && r.response.projection == Short
              && |r.response.drinks| == |t|
              && forall d :: d in r.response.drinks <==> Stored(t, d)
  {
    ListDrinks(t, Short)
  }

  /** `getdrinkdetails`: 404 when there is no drink, otherwise every drink once in
      its long form. */
  function GetDrinkDetails(t: Drinks): (r: Step)
    ensures r.store == t
    ensures r.response == Abort(404) <==> |t| == 0
    ensures r.response.Abort? || r.response.DrinkList?
    ensures r.response.DrinkList? ==>
              && r.response.projection == Long
              && |r.response.drinks| == |t|
              && forall d :: d in r.response.drinks <==> Stored(t, d)
  {
    ListDrinks(t, Long)
  }

  /* ---------- POST /drinks ---------- */

  /** `createdrink`. `freshId` is the key the database assigns; inserting under a
      key the table already holds fails like any other error in the `try`. A
      request without a JSON body raises at `data.get` inside the `try`. Both
      answer 404. */
  function CreateDrink(t: Drinks, body: Option<DrinkBody>, freshId: int): (r: Step)
    ensures body.None? || freshId in t ==> r == Step(Abort(404), t)
    ensures body.Some? && freshId !in t ==>
              var created := Row(freshId, DrinkFields(body.value.title, Dumps(body.value.recipe)));
              && r.response == DrinkList(Long, [created])
              && r.store.Keys == t.Keys + {freshId}
              && Stored(r.store, created)
              && (forall k :: k in t ==> r.store[k] == t[k])
              && |r.store| == |t| + 1
  {
    match body
    case None => Step(Abort(404), t)
    case Some(b) =>
      if freshId in t then Step(Abort(404), t)
      else
        var drink := Row(freshId, DrinkFields(b.title, Dumps(b.recipe)));
        Step(DrinkList(Long, [drink]), Insert(t, drink))
  }

  /** The stored recipe of a new drink is the JSON text of the request's recipe:
      printable ASCII, never empty, and `"null"` exactly when the recipe was
      missing or `null`. */
  lemma CreatedRecipe(t: Drinks, body: DrinkBody, freshId: int)
    requires freshId !in t
    ensures var recipe := CreateDrink(t, Some(body), freshId).store[freshId].recipe;
            && |recipe| > 0
            && Printable(recipe)
            && (recipe == "null" <==> body.recipe == JNull)
  {
    DumpsIsNullIff(body.recipe);
    DumpsPrintable(body.recipe);
  }

  /* ---------- PATCH /drinks/<int:id> ---------- */

  /** `updatedrink`: 404 when no drink has the id; 400 when the request has no JSON
      body (`data.get` raises inside the `try`). Otherwise the title is replaced
      only by a truthy one, and the recipe by the JSON text of the request's recipe
      whenever that text is truthy. */
  function UpdateDrink(t: Drinks, id: int, body: Option<DrinkBody>): (r: Step)
    ensures id !in t ==> r == Step(Abort(404), t)
    ensures id in t && body.None? ==> r == Step(Abort(400), t)
    ensures id in t && body.Some? ==>
              var title := if Truthy(body.value.title) then body.value.title else t[id].title;
              var updated := Row(id, DrinkFields(title, Dumps(body.value.recipe)));
              && r.response == DrinkList(Long, [updated])
              && r.store.Keys == t.Keys
              && Stored(r.store, updated)
              && forall k :: k in t && k != id ==> r.store[k] == t[k]
  {
    match Find(t, id)
    case None => Step(Abort(404), t)
    case Some(drink) =>
      match body
      case None => Step(Abort(400), t)
      case Some(b) =>
        var title := if Truthy(b.title) then b.title else drink.data.title;
        var recipeText := Dumps(b.recipe);
        DumpsIsNullIff(b.recipe);
        var recipe := if |recipeText| > 0 then recipeText else drink.data.recipe;
        var updated := Row(id, DrinkFields(title, recipe));
        Step(DrinkList(Long, [updated]), Update(t, updated))
  }

  /** A PATCH whose body names neither field keeps the title and overwrites the
      recipe with `"null"`: the recipe is never kept. */
  lemma EmptyPatchErasesRecipe(t: Drinks, id: int)
    requires id in t
    ensures UpdateDrink(t, id, Some(DrinkBody(None, JNull))).store[id] == DrinkFields(t[id].title, "null")
  {
  }

  /** Sending the same PATCH twice leaves the table as sending it once. */
  lemma UpdateIdempotent(t: Drinks, id: int, body: DrinkBody)
    ensures var once := UpdateDrink(t, id, Some(body)).store;
            UpdateDrink(once, id, Some(body)).store == once
  {
    if id in t {
      var once := UpdateDrink(t, id, Some(body)).store;
      var twice := UpdateDrink(once, id, Some(body)).store;
      assert twice.Keys == once.Keys;
      assert forall k :: k in once ==> twice[k] == once[k];
    }
  }

  /** A PATCH that repeats a drink's stored title and recipe changes nothing. */
  lemma UpdateWithStoredFieldsIsNoOp(t: Drinks, id: int, recipe: Json)
    requires id in t && Dumps(recipe) == t[id].recipe
    ensures UpdateDrink(t, id, Some(DrinkBody(t[id].title, recipe))).store == t
  {
    var after := UpdateDrink(t, id, Some(DrinkBody(t[id].title, recipe))).store;
    assert after.Keys == t.Keys;
    assert forall k :: k in t ==> after[k] == t[k];
  }

  /* ---------- DELETE /drinks/<id> ---------- */

  /** The key a path segment selects in `Drink.id == id`: the route passes the
      segment as text, and a text of decimal digits compares equal to its value. */
  function PathKey(id: string): (key: Option<int>)
    ensures key.Some? ==> key.value >= 0
    ensures key.Some? <==> |id| > 0 && forall k :: 0 <= k < |id| ==> IsDigit(id[k])
  {
    if |id| > 0 && forall k :: 0 <= k < |id| ==> IsDigit(id[k]) then Some(DigitsValue(id)) else None
  }

  /** The decimal text of a key selects that key. */
  lemma PathKeyOfNatText(n: nat)
    ensures PathKey(NatText(n)) == Some(n)
  {
    NatTextDigits(n);
  }

  /** A zero-padded digit run selects the key the digits without the padding
      select: `"007"` selects 7, as the database's numeric comparison does. */
  lemma PathKeyLeadingZero(id: string)
    requires PathKey(id).Some?
    ensures PathKey("0" + id) == PathKey(id)
  {
    var padded := "0" + id;
    assert forall k :: 1 <= k < |padded| ==> padded[k] == id[k - 1];
    DigitsValueLeadingZero(id);
  }

  /** `deletedrinks`: 404 when no drink has the id; otherwise that drink is removed,
      every other drink kept, and the body echoes the id as given. */
  function DeleteDrink(t: Drinks, id: string): (r: Step)
    ensures r.response.Status() == 200 <==> PathKey(id).Some? && PathKey(id).value in t
    ensures PathKey(id).None? || PathKey(id).value !in t ==> r == Step(Abort(404), t)
    ensures PathKey(id).Some? && PathKey(id).value in t ==>
              && r.response == Deleted(id)
              && r.store.Keys == t.Keys - {PathKey(id).value}
              && forall k :: k in r.store ==> r.store[k] == t[k]
  {
    match PathKey(id)
    case None => Step(Abort(404), t)
    case Some(key) =>
      match Find(t, key)
      case None => Step(Abort(404), t)
      case Some(drink) => Step(Deleted(id), Delete(t, drink.id))
  }

  /** Deleting the drink just created, by its id, gives back the table before. */
  lemma DeleteUndoesCreate(t: Drinks, body: DrinkBody, freshId: nat)
    requires freshId !in t
    ensures var created := CreateDrink(t, Some(body), freshId).store;
            DeleteDrink(created, NatText(freshId)) == Step(Deleted(NatText(freshId)), t)
  {
    PathKeyOfNatText(freshId);
    var created := CreateDrink(t, Some(body), freshId).store;
    var after := DeleteDrink(created, NatText(freshId)).store;
    assert after.Keys == t.Keys;
  }

  /** After a successful POST the detail listing has one drink more, the new one. */
  lemma CreateThenList(t: Drinks, body: DrinkBody, freshId: int)
    requires freshId !in t
    ensures var after := CreateDrink(t, Some(body), freshId);
            && GetDrinkDetails(after.store).response.DrinkList?
            && |GetDrinkDetails(after.store).response.drinks| == |t| + 1
            && after.response.drinks[0] in GetDrinkDetails(after.store).response.drinks
  {
  }
}

=== FILE: json.dfy ===
/** JSON values and Python's `json.dumps` with its default settings
    (`ensure_ascii=True`, separators `", "` and `": "`). */
module Json {

  /** A JSON value. An object keeps its members in insertion order, as a Python dict does. */
  datatype Json =
    | JNull
    | JBool(b: bool)
    | JInt(i: int)
    | JStr(s: string)
    | JArray(items: seq<Json>)
    | JObject(members: seq<(string, Json)>)

  /** The keys of an object's members, in order. */
  function Keys(members: seq<(string, Json)>): (ks: seq<string>)
    ensures |ks| == |members|
  {
    seq(|members|, k requires 0 <= k < |members| => members[k].0)
  }

  /** Looks `key` up among `members`: the value of the first member with that key,
      `null` when none has it. Every dict of this model is built with distinct keys,
      where this is `d[key]`. */
  function Member(members: seq<(string, Json)>, key: string): Json
  {
    if |members| == 0 then JNull
    else if members[0].0 == key then members[0].1
    else Member(members[1..], key)
  }

  /** The lookup finds a member whose key no earlier member has. */
  lemma {:induction false} MemberAt(members: seq<(string, Json)>, i: int)
    requires 0 <= i < |members|
    requires forall j :: 0 <= j < i ==> members[j].0 != members[i].0
    ensures Member(members, members[i].0) == members[i].1
    decreases i
  {
    if i > 0 {
      MemberAt(members[1..], i - 1);
    }
  }

  /* ---------- decimal and hexadecimal text ---------- */

  function Digit(d: nat): char
    requires d < 10
  {
    "0123456789"[d]
  }

  predicate IsDigit(c: char) {
    '0' <= c <= '9'
  }

  /** Python's `str(n)` for a natural number. */
  function NatText(n: nat): (r: string)
    decreases n
  {
    if n < 10 then [Digit(n)] else NatText(n / 10) + [Digit(n % 10)]
  }

  /** Python's `str(i)`: a minus sign, then the digits of the magnitude. */
  function IntText(i: int): string {
    if i < 0 then "-" + NatText(-i) else NatText(i)
  }

  /** Reads back the digits written by `NatText`. */
  function DigitsValue(s: string): nat
    decreases |s|
  {
    if |s| == 0 then 0
    else DigitsValue(s[..|s| - 1]) * 10 + (if IsDigit(s[|s| - 1]) then s[|s| - 1] as int - '0' as int else 0)
  }

  /** A leading zero does not change the value of a digit run. */
  lemma {:induction false} DigitsValueLeadingZero(s: string)
    ensures DigitsValue("0" + s) == DigitsValue(s)
    decreases |s|
  {
    if |s| > 0 {
      var t := "0" + s;
      assert t[..|t| - 1] == "0" + s[..|s| - 1];
      assert t[|t| - 1] == s[|s| - 1];
      DigitsValueLeadingZero(s[..|s| - 1]);
    }
  }

  lemma {:induction false} NatTextDigits(n: nat)
    ensures |NatText(n)| > 0
    ensures forall k :: 0 <= k < |NatText(n)| ==> IsDigit(NatText(n)[k])
    ensures DigitsValue(NatText(n)) == n
    decreases n
  {
    if n >= 10 {
      NatTextDigits(n / 10);
      var s := NatText(n);
      assert s[..|s| - 1] == NatText(n / 10);
    }
  }

  function HexDigit(d: nat): char
    requires d < 16
  {
    "0123456789abcdef"[d]
  }

  /** Four lower-case hexadecimal digits, as `'{0:04x}'.format(n)`. */
  function Hex4(n: nat): (r: string)
    requires n < 0x1_0000
    ensures |r| == 4
  {
    [HexDigit(n / 0x1000), HexDigit(n / 0x100 % 16), HexDigit(n / 16 % 16), HexDigit(n % 16)]
  }

  /* ---------- strings ---------- */

  /** The letter of a two-character escape: quote, backslash, newline, carriage
      return, tab, backspace and form feed; `' '` for every other character. */
  function ShortEscape(c: char): char {
    if c == '"' then '"'
    else if c == '\\' then '\\'
    else if c == '\n' then 'n'
    else if c == '\r' then 'r'
    else if c == '\t' then 't'
    else if c as int == 0x08 then 'b'
    else if c as int == 0x0C then 'f'
    else ' '
  }

  /** `\uXXXX` for one UTF-16 code unit. */
  function CodeUnitEscape(u: nat): (r: string)
    requires u < 0x1_0000
    ensures |r| == 6
  {
    "\\u" + Hex4(u)
  }

  /** The leading and trailing UTF-16 surrogates of a code point beyond the
      Basic Multilingual Plane. */
  function HighSurrogate(c: char): (u: nat)
    requires c as int >= 0x1_0000
    ensures 0xD800 <= u < 0xDC00
  {
    0xD800 + (c as int - 0x1_0000) / 0x400
  }

  function LowSurrogate(c: char): (u: nat)
    requires c as int >= 0x1_0000
    ensures 0xDC00 <= u < 0xE000
  {
    0xDC00 + (c as int - 0x1_0000) % 0x400
  }

  /** The code point as `json.dumps` escapes it: one `\uXXXX` in the Basic
      Multilingual Plane, a UTF-16 surrogate pair of two such escapes beyond it. */
  function UnicodeEscape(c: char): string {
    if c as int < 0x1_0000 then CodeUnitEscape(c as int)
    else CodeUnitEscape(HighSurrogate(c)) + CodeUnitEscape(LowSurrogate(c))
  }

  /** One character as `json.dumps` writes it inside a string with `ensure_ascii`:
      the two-character escapes first, printable ASCII unchanged, anything else
      as a Unicode escape. */
  function EscapeChar(c: char): (r: string)
    ensures |r| > 0
  {
    if ShortEscape(c) != ' ' then ['\\', ShortEscape(c)]
    else if ' ' <= c <= '~' then [c]
    else UnicodeEscape(c)
  }

  function EscapeAll(s: string): string
    decreases |s|
  {
    if |s| == 0 then "" else EscapeChar(s[0]) + EscapeAll(s[1..])
  }

  /** A string literal: the escaped characters between double quotes. */
  function Quote(s: string): string {
    "\"" + EscapeAll(s) + "\""
  }

  /** `", ".join(parts)`. */
  function Join(parts: seq<string>): string
    decreases |parts|
  {
    if |parts| == 0 then ""
    else if |parts| == 1 then parts[0]
    else parts[0] + ", " + Join(parts[1..])
  }

  /** Python's `json.dumps(j)` with the default arguments. */
  function Dumps(j: Json): string
    decreases j
  {
    match j
    case JNull => "null"
    case JBool(b) => if b then "true" else "false"
    case JInt(i) => IntText(i)
    case JStr(s) => Quote(s)
    case JArray(items) =>
      "[" + Join(seq(|items|, k requires 0 <= k < |items| => Dumps(items[k]))) + "]"
    case JObject(members) =>
      "{" + Join(seq(|members|, k requires 0 <= k < |members| =>
                       Quote(members[k].0) + ": " + Dumps(members[k].1))) + "}"
  }

  /* ---------- properties of the serialisation ---------- */

  /** Printable ASCII, the only characters `ensure_ascii` output contains. */
  predicate Printable(s: string) {
    forall k :: 0 <= k < |s| ==> ' ' <= s[k] <= '~'
  }

  lemma Hex4Printable(n: nat)
    requires n < 0x1_0000
    ensures Printable(Hex4(n))
  {
    var r := Hex4(n);
    forall k | 0 <= k < 4
      ensures ' ' <= r[k] <= '~'
    {
    }
  }

  lemma PrintableConcat(a: string, b: string)
    requires Printable(a) && Printable(b)
    ensures Printable(a + b)
  {
  }

  lemma CodeUnitEscapePrintable(u: nat)
    requires u < 0x1_0000
    ensures Printable(CodeUnitEscape(u))
  {
    Hex4Printable(u);
    PrintableConcat("\\u", Hex4(u));
  }

  lemma UnicodeEscapePrintable(c: char)
    ensures Printable(UnicodeEscape(c))
  {
    if c as int < 0x1_0000 {
      CodeUnitEscapePrintable(c as int);
    } else {
      CodeUnitEscapePrintable(HighSurrogate(c));
      CodeUnitEscapePrintable(LowSurrogate(c));
      PrintableConcat(CodeUnitEscape(HighSurrogate(c)), CodeUnitEscape(LowSurrogate(c)));
    }
  }

  lemma EscapeCharPrintable(c: char)
    ensures Printable(EscapeChar(c))
  {
    if ShortEscape(c) == ' ' && !(' ' <= c <= '~') {
      UnicodeEscapePrintable(c);
    }
  }

  lemma {:induction false} EscapeAllPrintable(s: string)
    ensures Printable(EscapeAll(s))
    decreases |s|
  {
    if |s| > 0 {
      EscapeAllPrintable(s[1..]);
      EscapeCharPrintable(s[0]);
    }
  }

  lemma {:induction false} JoinPrintable(parts: seq<string>)
    requires forall k :: 0 <= k < |parts| ==> Printable(parts[k])
    ensures Printable(Join(parts))
    decreases |parts|
  {
    if |parts| > 1 {
      JoinPrintable(parts[1..]);
    }
  }

  lemma IntTextPrintable(i: int)
    ensures Printable(IntText(i))
  {
    NatTextDigits(if i < 0 then -i else i);
  }

  lemma EnclosedPrintable(open: string, inner: string, close: string)
    requires Printable(open) && Printable(inner) && Printable(close)
    ensures Printable(open + inner + close)
  {
    PrintableConcat(open, inner);
    PrintableConcat(open + inner, close);
  }

  /** `json.dumps` with `ensure_ascii` never emits a control character or a
      non-ASCII character, whatever the value holds. */
  lemma {:induction false} DumpsPrintable(j: Json)
    ensures Printable(Dumps(j))
    decreases j
  {
    match j
    case JNull =>
    case JBool(b) =>
    case JInt(i) =>
      IntTextPrintable(i);
    case JStr(s) =>
      EscapeAllPrintable(s);
      EnclosedPrintable("\"", EscapeAll(s), "\"");
    case JArray(items) =>
      var parts := seq(|items|, k requires 0 <= k < |items| => Dumps(items[k]));
      forall k | 0 <= k < |items|
        ensures Printable(parts[k])
      {
        DumpsPrintable(items[k]);
      }
      JoinPrintable(parts);
      EnclosedPrintable("[", Join(parts), "]");
    case JObject(members) =>
      var parts := seq(|members|, k requires 0 <= k < |members| =>
                         Quote(members[k].0) + ": " + Dumps(members[k].1));
      forall k | 0 <= k < |members|
        ensures Printable(parts[k])
      {
        EscapeAllPrintable(members[k].0);
        EnclosedPrintable("\"", EscapeAll(members[k].0), "\"");
        DumpsPrintable(members[k].1);
        EnclosedPrintable(Quote(members[k].0), ": ", Dumps(members[k].1));
      }
      JoinPrintable(parts);
      EnclosedPrintable("{", Join(parts), "}");
  }

  /** The first character of the text names the kind of value serialised. */
  function KindMark(j: Json): char {
    match j
    case JNull => 'n'
    case JBool(b) => if b then 't' else 'f'
    case JInt(i) => if i < 0 then '-' else '0'
    case JStr(_) => '"'
    case JArray(_) => '['
    case JObject(_) => '{'
  }

  lemma DumpsStartsWithKind(j: Json)
    ensures |Dumps(j)| > 0
    ensures j.JInt? && j.i >= 0 ==> IsDigit(Dumps(j)[0])
    ensures !(j.JInt? && j.i >= 0) ==> Dumps(j)[0] == KindMark(j)
  {
    if j.JInt? {
      NatTextDigits(if j.i < 0 then -j.i else j.i);
    }
  }

  /** The serialisation is never the empty string, so it is always truthy in Python;
      and it is the text `null` exactly when the value is `None`. */
  lemma DumpsIsNullIff(j: Json)
    ensures |Dumps(j)| > 0
    ensures Dumps(j) == "null" <==> j == JNull
  {
    DumpsStartsWithKind(j);
    if Dumps(j) == "null" {
      assert Dumps(j)[0] == 'n';
    }
  }
}

=== FILE: models.dfy ===
/** The trivia records, `Question` and `Category`, and their `format()` dictionaries. */
module Models {

  import opened Wrappers
  import opened Json
  import opened Table

  /** The columns of a question other than its key. Every column is nullable,
      so each is optional; the constructor `Question(question, answer, category,
      difficulty, rating)` stores its five arguments in these fields as given. */
  datatype QuestionFields = QuestionFields(
    question: Option<string>,
    answer: Option<string>,
    category: Option<int>,
    difficulty: Option<int>,
    rating: Option<int>)

  type Question = Row<QuestionFields>

  /** The one non-key column of a category, `type`. */
  datatype CategoryFields = CategoryFields(typeName: Option<string>)

  type Category = Row<CategoryFields>

  /** A nullable column as a JSON value: `None` becomes `null`. */
  function TextValue(s: Option<string>): Json {
    match s
    case None => JNull
    case Some(t) => JStr(t)
  }

  function IntValue(i: Option<int>): Json {
    match i
    case None => JNull
    case Some(n) => JInt(n)
  }

  const QuestionKeys: seq<string> := ["id", "question", "answer", "category", "difficulty", "rating"]
  const CategoryKeys: seq<string> := ["id", "type"]

  /** `Question.format()`: a dict of the key and the five columns. */
  function FormatQuestion(q: Question): (j: Json)
    ensures j.JObject? && Keys(j.members) == QuestionKeys
  {
    JObject([("id", JInt(q.id)),
             ("question", TextValue(q.data.question)),
             ("answer", TextValue(q.data.answer)),
             ("category", IntValue(q.data.category)),
             ("difficulty", IntValue(q.data.difficulty)),
             ("rating", IntValue(q.data.rating))])
  }

  /** `Category.format()`: a dict of the key and the type. */
  function FormatCategory(c: Category): (j: Json)
    ensures j.JObject? && Keys(j.members) == CategoryKeys
  {
    JObject([("id", JInt(c.id)), ("type", TextValue(c.data.typeName))])
  }

  /* ---------- reading a formatted record back ---------- */

  /** A JSON value as a nullable text column; `None` when it is neither. */
  function ReadText(j: Json): Option<Option<string>> {
    match j
    case JNull => Some(None)
    case JStr(s) => Some(Some(s))
    case _ => None
  }

  function ReadInt(j: Json): Option<Option<int>> {
    match j
    case JNull => Some(None)
    case JInt(n) => Some(Some(n))
    case _ => None
  }

  /** Rebuilds a question from a dict with exactly the keys `format()` writes. */
  function ParseQuestion(j: Json): Option<Question> {
    if !j.JObject? || Keys(j.members) != QuestionKeys then None
    else
      var m := j.members;
      match (Member(m, "id"), ReadText(Member(m, "question")), ReadText(Member(m, "answer")),
             ReadInt(Member(m, "category")), ReadInt(Member(m, "difficulty")), ReadInt(Member(m, "rating")))
      case (JInt(id), Some(q), Some(a), Some(c), Some(d), Some(r)) =>
        Some(Row(id, QuestionFields(q, a, c, d, r)))
      case _ => None
  }

  /** Rebuilds a category from a dict with exactly the keys `format()` writes. */
  function ParseCategory(j: Json): Option<Category> {
    if !j.JObject? || Keys(j.members) != CategoryKeys then None
    else
      match (Member(j.members, "id"), ReadText(Member(j.members, "type")))
      case (JInt(id), Some(t)) => Some(Row(id, CategoryFields(t)))
      case _ => None
  }

  /** `Question.format()` reports the key and every column unchanged: reading the
      dict back gives the same question. */
  lemma FormatQuestionRoundTrip(q: Question)
    ensures ParseQuestion(FormatQuestion(q)) == Some(q)
  {
    var m := FormatQuestion(q).members;
    MemberAt(m, 0);
    MemberAt(m, 1);
    MemberAt(m, 2);
    MemberAt(m, 3);
    MemberAt(m, 4);
    MemberAt(m, 5);
    assert ReadText(Member(m, "question")) == Some(q.data.question);
    assert ReadText(Member(m, "answer")) == Some(q.data.answer);
    assert ReadInt(Member(m, "category")) == Some(q.data.category);
    assert ReadInt(Member(m, "difficulty")) == Some(q.data.difficulty);
    assert ReadInt(Member(m, "rating")) == Some(q.data.rating);
  }

  /** `Category.format()` reports the key and the type unchanged. */
  lemma FormatCategoryRoundTrip(c: Category)
    ensures ParseCategory(FormatCategory(c)) == Some(c)
  {
    var m := FormatCategory(c).members;
    MemberAt(m, 1);
  }

  /** Different questions format to different dicts. */
  lemma FormatQuestionInjective(q1: Question, q2: Question)
    ensures FormatQuestion(q1) == FormatQuestion(q2) ==> q1 == q2
  {
    FormatQuestionRoundTrip(q1);
    FormatQuestionRoundTrip(q2);
  }
}

=== FILE: pyslice.dfy ===
/** Python list slicing `xs[start:end]` with step 1. */
module PySlice {

  /** Python's normalisation of one slice bound against a list of length `n`:
      a negative bound counts back from the end, then the bound is clamped into [0, n]. */
  function Bound(i: int, n: nat): (b: nat)
    ensures b <= n
  {
    if i < 0 then (if i + n < 0 then 0 else i + n)
    else if i > n then n
    else i
  }

  /** `s[start:end]`: the elements between the two normalised bounds, or nothing
      when the lower bound does not lie below the upper one. */
  function Slice<T>(s: seq<T>, start: int, end: int): (r: seq<T>)
    ensures |r| <= |s|
    ensures start <= end ==> |r| <= end - start
    ensures forall k :: 0 <= k < |r| ==> Bound(start, |s|) + k < |s| && r[k] == s[Bound(start, |s|) + k]
  {
    var lo := Bound(start, |s|);
    var hi := Bound(end, |s|);
    if lo < hi then s[lo..hi] else []
  }

  /** A slice whose bounds are both non-negative is the plain window
      `s[start .. min(end, |s|)]`, empty when `start` is at or past the end. */
  lemma NonNegativeSlice<T>(s: seq<T>, start: int, end: int)
    requires 0 <= start <= end
    ensures start >= |s| ==> Slice(s, start, end) == []
    ensures start < |s| ==> Slice(s, start, end) == s[start .. if end < |s| then end else |s|]
  {
  }

  /** A slice whose bounds are both negative counts back from the end of the list. */
  lemma NegativeSlice<T>(s: seq<T>, start: int, end: int)
    requires start <= end < 0
    ensures var lo := if |s| + start < 0 then 0 else |s| + start;
            var hi := if |s| + end < 0 then 0 else |s| + end;
            Slice(s, start, end) == s[lo..hi]
  {
  }
}

=== FILE: table.dfy ===
/** A database table keyed by an integer primary key, held in memory: the
    SQLAlchemy session operations `add`+`commit`, `delete`+`commit` and
    `commit` of an edited row, and the query `order_by(id).all()`. */
module Table {

  import opened Wrappers

  /** A row: its primary key and its other columns. */
  datatype Row<T> = Row(id: int, data: T)

  /** A table maps each primary key to the row's other columns; keys are unique. */
  type Table<T> = map<int, T>

  /** Rows in strictly ascending primary-key order (so no key occurs twice). */
  predicate Ordered<T>(rows: seq<Row<T>>) {
    forall i, j :: 0 <= i < j < |rows| ==> rows[i].id < rows[j].id
  }

  /** `r` is a row of `t`. */
  predicate Stored<T(==)>(t: Table<T>, r: Row<T>) {
    r.id in t && t[r.id] == r.data
  }

  lemma HasMember(ks: set<int>)
    requires ks != {}
    ensures exists x :: x in ks
  {
    if forall y :: y !in ks {
      assert false;
    }
  }

  lemma {:induction false} MinExists(ks: set<int>)
    requires ks != {}
    ensures exists m :: m in ks && forall k :: k in ks ==> m <= k
    decreases ks
  {
    HasMember(ks);
    var x :| x in ks;
    var rest := ks - {x};
    if rest != {} {
      MinExists(rest);
      var m :| m in rest && forall k :: k in rest ==> m <= k;
      var least := if x < m then x else m;
      forall k | k in ks
        ensures least <= k
      {
        if k != x {
          assert k in rest;
        }
      }
    } else {
      forall k | k in ks
        ensures x <= k
      {
        assert k == x || k in rest;
      }
    }
  }

  /** The smallest key of a non-empty key set. */
  function MinKey(ks: set<int>): (m: int)
    requires ks != {}
    ensures m in ks && forall k :: k in ks ==> m <= k
  {
    MinExists(ks);
    var m :| m in ks && forall k :: k in ks ==> m <= k;
    m
  }

  /** `Model.query.order_by(Model.id).all()`: every row once, in key order. */
  function Rows<T(==,!new)>(t: Table<T>): (rows: seq<Row<T>>)
    ensures Ordered(rows)
    ensures forall r :: r in rows <==> Stored(t, r)
    ensures |rows| == |t|
    decreases t.Keys
  {
    if t.Keys == {} then
      assert |t| == |t.Keys|;
      []
    else
      var k := MinKey(t.Keys);
      var rest := Rows(t - {k});
      RowsStep(t, k, rest);
      [Row(k, t[k])] + rest
  }

  /** The smallest key's row followed by the ordered rows of the remaining table
      is an ordered list of exactly the table's rows. */
  lemma RowsStep<T(!new)>(t: Table<T>, k: int, rest: seq<Row<T>>)
    requires k in t && forall m :: m in t ==> k <= m
    requires Ordered(rest)
    requires forall r :: r in rest <==> Stored(t - {k}, r)
    requires |rest| == |t - {k}|
    ensures Ordered([Row(k, t[k])] + rest)
    ensures forall r :: r in [Row(k, t[k])] + rest <==> Stored(t, r)
    ensures |[Row(k, t[k])] + rest| == |t|
  {
    forall j | 0 <= j < |rest|
      ensures rest[j].id > k
    {
      assert rest[j] in rest;
    }
    assert (t - {k}).Keys == t.Keys - {k};
  }

  /** `Model.query.filter(id == key).one_or_none()`. */
  function Find<T(==)>(t: Table<T>, key: int): (r: Option<Row<T>>)
    ensures r.Some? <==> key in t
    ensures r.Some? ==> Stored(t, r.value) && r.value.id == key
  {
    if key in t then Some(Row(key, t[key])) else None
  }

  /** `session.add(row); session.commit()` of a row whose key the table does not hold. */
  function Insert<T(==)>(t: Table<T>, r: Row<T>): (t': Table<T>)
    requires r.id !in t
    ensures t'.Keys == t.Keys + {r.id}
    ensures Stored(t', r)
    ensures forall k :: k in t ==> t'[k] == t[k]
    ensures |t'| == |t| + 1
  {
    t[r.id := r.data]
  }

  /** `session.delete(row); session.commit()` of a stored row. */
  function Delete<T(==)>(t: Table<T>, key: int): (t': Table<T>)
    requires key in t
    ensures t'.Keys == t.Keys - {key}
    ensures forall k :: k in t' ==> t'[k] == t[k]
    ensures |t'| == |t| - 1
  {
    t - {key}
  }

  /** `session.commit()` after the columns of a stored row were edited in place:
      the row with that key now holds the new columns. */
  function Update<T(==)>(t: Table<T>, r: Row<T>): (t': Table<T>)
    requires r.id in t
    ensures t'.Keys == t.Keys
    ensures Stored(t', r)
    ensures forall k :: k in t && k != r.id ==> t'[k] == t[k]
  {
    t[r.id := r.data]
  }

  /** Deleting a freshly inserted row gives back the table it was inserted into. */
  lemma DeleteUndoesInsert<T>(t: Table<T>, r: Row<T>)
    requires r.id !in t
    ensures Delete(Insert(t, r), r.id) == t
  {
  }

  /** Committing a row that was not edited changes nothing: `update` only persists. */
  lemma UpdateUnchangedIsNoOp<T>(t: Table<T>, key: int)
    requires key in t
    ensures Update(t, Row(key, t[key])) == t
  {
  }

  /** `query.filter(p)` over a row list: the rows satisfying `p`, order kept. */
  function Filter<T(==,!new)>(rows: seq<Row<T>>, p: Row<T> -> bool): (r: seq<Row<T>>)
    ensures forall x :: x in r <==> x in rows && p(x)
    ensures |r| <= |rows|
    decreases |rows|
  {
    if |rows| == 0 then []
    else
      assert rows == [rows[0]] + rows[1..];
      var rest := Filter(rows[1..], p);
      if p(rows[0]) then [rows[0]] + rest else rest
  }

  /** Filtering a key-ordered list leaves it key-ordered. */
  lemma {:induction false} FilterKeepsOrder<T(!new)>(rows: seq<Row<T>>, p: Row<T> -> bool)
    requires Ordered(rows)
    ensures Ordered(Filter(rows, p))
    decreases |rows|
  {
    if |rows| > 0 {
      var rest := Filter(rows[1..], p);
      FilterKeepsOrder(rows[1..], p);
      forall j | 0 <= j < |rest|
        ensures rest[j].id > rows[0].id
      {
        assert rest[j] in rows[1..];
        var i :| 0 <= i < |rows[1..]| && rows[1..][i] == rest[j];
        assert rows[i + 1] == rest[j];
      }
    }
  }

  /** The sub-table of the rows satisfying `p`. */
  function Select<T>(t: Table<T>, p: Row<T> -> bool): Table<T> {
    map k | k in t && p(Row(k, t[k])) :: t[k]
  }

  /** Stated as an implication so that it can be invoked where the two lists are
      known to hold the same rows: there an inline index would be checked under
      assumptions that already contradict each other. */
  lemma HeadNotInEmpty<T>(s: seq<T>, t: seq<T>)
    ensures |s| == 0 && |t| > 0 ==> t[0] !in s
  {
  }

  lemma StoredInSelect<T>(t: Table<T>, p: Row<T> -> bool, x: Row<T>)
    ensures Stored(Select(t, p), x) <==> Stored(t, x) && p(x)
  {
  }

  /** Two ordered row lists with the same rows are the same list. */
  lemma {:induction false} OrderedUnique<T(!new)>(a: seq<Row<T>>, b: seq<Row<T>>)
    requires Ordered(a) && Ordered(b)
    requires forall x :: x in a <==> x in b
    ensures a == b
    decreases |a|
  {
    if |a| == 0 || |b| == 0 {
      HeadNotInEmpty(a, b);
      HeadNotInEmpty(b, a);
    } else {
      assert a[0] == b[0] by {
        assert a[0] in b && b[0] in a;
        var i :| 0 <= i < |a| && a[i] == b[0];
        var j :| 0 <= j < |b| && b[j] == a[0];
        assert a[0].id <= a[i].id;
        assert b[0].id <= b[j].id;
        assert i == 0;
      }
      forall x
        ensures x in a[1..] <==> x in b[1..]
      {
        if x in a[1..] {
          var i :| 1 <= i < |a| && a[i] == x;
          assert x.id > a[0].id;
          assert x in b && x != b[0];
        }
        if x in b[1..] {
          var j :| 1 <= j < |b| && b[j] == x;
          assert x.id > b[0].id;
          assert x in a && x != a[0];
        }
      }
      OrderedUnique(a[1..], b[1..]);
    }
  }

  /** Filtering the key-ordered rows is listing the selected sub-table in key
      order; so the filtered list has one entry per matching row. */
  lemma FilterRowsIsRowsOfSelect<T(!new)>(t: Table<T>, p: Row<T> -> bool)
    ensures Filter(Rows(t), p) == Rows(Select(t, p))
    ensures |Filter(Rows(t), p)| == |Select(t, p)|
  {
    var a := Filter(Rows(t), p);
    var b := Rows(Select(t, p));
    FilterKeepsOrder(Rows(t), p);
    forall x
      ensures x in a <==> x in b
    {
      StoredInSelect(t, p, x);
    }
    OrderedUnique(a, b);
  }
}

=== FILE: text.dfy ===
/** Case-insensitive substring search, the `ILIKE '%term%'` the question search issues. */
module Text {

  import opened Wrappers

  /** Python truthiness of an optional string: present and non-empty. */
  predicate Truthy(s: Option<string>) {
    s.Some? && |s.value| > 0
  }

  /** Lower-case for the ASCII letters; every other character is kept. */
  function LowerChar(c: char): char {
    if 'A' <= c <= 'Z' then (c as int + 32) as char else c
  }

  function Lower(s: string): string {
    seq(|s|, k requires 0 <= k < |s| => LowerChar(s[k]))
  }

  /** `pat` occurs in `s` starting at position `k`. */
  predicate OccursAt(pat: string, s: string, k: int) {
    0 <= k && k + |pat| <= |s| && s[k..k + |pat|] == pat
  }

  /** Scans `s` left to right for an occurrence of `pat`. */
  function Contains(s: string, pat: string): bool
    decreases |s|
  {
    if |pat| > |s| then false
    else if s[..|pat|] == pat then true
    else Contains(s[1..], pat)
  }

  /** The scan finds an occurrence exactly when one exists. */
  lemma {:induction false} ContainsIffOccurs(s: string, pat: string)
    ensures Contains(s, pat) <==> exists k :: OccursAt(pat, s, k)
    decreases |s|
  {
    if |pat| > |s| {
    } else if s[..|pat|] == pat {
      assert OccursAt(pat, s, 0);
    } else {
      ContainsIffOccurs(s[1..], pat);
      if k :| OccursAt(pat, s[1..], k) {
        assert s[1..][k..k + |pat|] == s[k + 1..k + 1 + |pat|];
        assert OccursAt(pat, s, k + 1);
      }
      if k :| OccursAt(pat, s, k) {
        assert k != 0;
        assert s[1..][k - 1..k - 1 + |pat|] == s[k..k + |pat|];
        assert OccursAt(pat, s[1..], k - 1);
      }
    }
  }

  /** `text ILIKE '%term%'` on a present text: the lower-cased term occurs
      somewhere in the lower-cased text. */
  function ILike(text: string, term: string): bool {
    Contains(Lower(text), Lower(term))
  }

  /** The match is case-insensitive: it sees only the lower-cased forms. */
  lemma ILikeIgnoresCase(text: string, term: string)
    ensures ILike(text, term) <==> exists k :: OccursAt(Lower(term), Lower(text), k)
    ensures ILike(Lower(text), term) == ILike(text, term) == ILike(text, Lower(term))
  {
    ContainsIffOccurs(Lower(text), Lower(term));
    assert Lower(Lower(text)) == Lower(text);
    assert Lower(Lower(term)) == Lower(term);
  }
}

=== FILE: trivia.dfy ===
/** The trivia question service. Each HTTP handler is a function from the request
    fields and the store to the response and the store after the request. */
module Trivia {

  import opened Wrappers
  import opened Json
  import opened Table
  import opened Models
  import opened PySlice
  import opened Text

  const QuestionsPerPage: int := 10

  /** The two tables of the trivia database. */
  datatype Store = Store(questions: Table<QuestionFields>, categories: Table<CategoryFields>)

  /** A handler's response. `Abort(code)` is `abort(code)`: the status, whose JSON
      body comes from the error handler. Every other response has status 200. */
  datatype Response =
    | Abort(code: int)
    | QuestionPage(questions: seq<Json>, totalQuestions: int, categories: map<int, Option<string>>)
    | QuestionDeleted
    | SearchResults(questions: seq<Json>, totalQuestions: int)
    | QuestionCreated(created: int, questions: seq<Json>, totalQuestions: int)
    | CategoryPage(questions: seq<Json>, totalQuestions: int, currentCategory: Json)
    | QuizQuestion(question: Json)
    | QuizExhausted
    | CategoryCreated(created: int, categoryList: seq<Json>, totalCategories: int)
  {
    function Status(): int {
      if Abort? then code else 200
    }

    /** The `success` field of the body. */
    predicate Success() {
      !Abort? && !QuizExhausted?
    }
  }

  datatype Step = Step(response: Response, store: Store)

  /** What the body of a handler's `try` block did: raised an exception (an
      `abort` included), or completed with a response and a new store. */
  datatype Attempt = Raised | Completed(step: Step)

  /** `except BaseException: abort(code)`: whatever was raised inside the block,
      the response is `code`, and nothing was committed. */
  function ExceptAll(a: Attempt, s: Store, code: int): (r: Step)
    ensures a.Raised? ==> r.response == Abort(code) && r.store == s
    ensures a.Completed? ==> r == a.step
  {
    match a
    case Raised => Step(Abort(code), s)
    case Completed(st) => st
  }

  /* ---------- pagination ---------- */

  /** `request.args.get('page', 1, type=int)`: `None` stands for a missing
      argument or one that does not parse as an integer. */
  function PageArg(page: Option<int>): int {
    page.GetOr(1)
  }

  function FormatAll(qs: seq<Question>): (js: seq<Json>)
    ensures |js| == |qs|
  {
    seq(|qs|, k requires 0 <= k < |qs| => FormatQuestion(qs[k]))
  }

  /** `paginate_questions`: formats every question, then takes the Python slice
      `[start:end]` with `start = (page - 1) * 10` and `end = start + 10`. */
  function Paginate(page: int, qs: seq<Question>): (r: seq<Json>)
    ensures |r| <= QuestionsPerPage
    ensures forall k :: 0 <= k < |r| ==> exists j :: 0 <= j < |qs| && r[k] == FormatQuestion(qs[j])
  {
    var start := (page - 1) * QuestionsPerPage;
    var formatted := FormatAll(qs);
    var r := Slice(formatted, start, start + QuestionsPerPage);
    assert forall k :: 0 <= k < |r| ==> r[k] == FormatQuestion(qs[Bound(start, |qs|) + k]);
    r
  }

  lemma FormatAllSlice(qs: seq<Question>, lo: int, hi: int)
    requires 0 <= lo <= hi <= |qs|
    ensures FormatAll(qs)[lo..hi] == FormatAll(qs[lo..hi])
  {
  }

  /** Page `p >= 1` is the questions at positions `(p-1)*10` up to
      `min(p*10, n)`, in order; a page starting at or past the end is empty. */
  lemma PageWindow(page: int, qs: seq<Question>)
    requires page >= 1
    ensures var start := (page - 1) * QuestionsPerPage;
            var end := if start + QuestionsPerPage < |qs| then start + QuestionsPerPage else |qs|;
            Paginate(page, qs) == if start < |qs| then FormatAll(qs[start..end]) else []
  {
    var start := (page - 1) * QuestionsPerPage;
    NonNegativeSlice(FormatAll(qs), start, start + QuestionsPerPage);
    if start < |qs| {
      var end := if start + QuestionsPerPage < |qs| then start + QuestionsPerPage else |qs|;
      FormatAllSlice(qs, start, end);
    }
  }

  /** Page 0 slices `[-10:0]`, which is always empty. */
  lemma PageZeroIsEmpty(qs: seq<Question>)
    ensures Paginate(0, qs) == []
  {
  }

  /** A negative page slices with two negative bounds, so it counts back from the
      end of the list: page -1 holds the questions 20 to 10 places from the end. */
  lemma NegativePageCountsFromEnd(page: int, qs: seq<Question>)
    requires page < 0
    ensures var start := |qs| + (page - 1) * QuestionsPerPage;
            var lo := if start < 0 then 0 else start;
            var hi := if start + QuestionsPerPage < 0 then 0 else start + QuestionsPerPage;
            Paginate(page, qs) == FormatAll(qs)[lo..hi]
  {
    var start := (page - 1) * QuestionsPerPage;
    NegativeSlice(FormatAll(qs), start, start + QuestionsPerPage);
  }

  /** The positive pages cover the list: question `i` is entry `i % 10` of page `i / 10 + 1`. */
  lemma EveryQuestionOnItsPage(qs: seq<Question>, i: int)
    requires 0 <= i < |qs|
    ensures var page := Paginate(i / QuestionsPerPage + 1, qs);
            i % QuestionsPerPage < |page| && page[i % QuestionsPerPage] == FormatQuestion(qs[i])
  {
    var p := i / QuestionsPerPage + 1;
    PageWindow(p, qs);
    var start := (p - 1) * QuestionsPerPage;
    assert start == i - i % QuestionsPerPage;
  }

  /** `entry` is the `format()` of a stored question with property `P`. */
  ghost predicate FormatsStored(t: Table<QuestionFields>, P: Question -> bool, entry: Json) {
    exists q :: Stored(t, q) && P(q) && entry == FormatQuestion(q)
  }

  /** Every entry of a page of `rows` is the `format()` of a stored question
      with property `P`, when every listed row is one. */
  lemma PageEntriesStored(t: Table<QuestionFields>, rows: seq<Question>, page: int, P: Question -> bool)
    requires forall x :: x in rows ==> Stored(t, x) && P(x)
    ensures forall k :: 0 <= k < |Paginate(page, rows)| ==> FormatsStored(t, P, Paginate(page, rows)[k])
  {
    var r := Paginate(page, rows);
    forall k | 0 <= k < |r|
      ensures FormatsStored(t, P, r[k])
    {
      var j :| 0 <= j < |rows| && r[k] == FormatQuestion(rows[j]);
      assert rows[j] in rows;
    }
  }

  /* ---------- categories ---------- */

  /** The loop of `get_category_list`: `categories[category.id] = category.type`
      for each row in turn, a later row overwriting an earlier one. */
  function CategoryDict(rows: seq<Category>): (d: map<int, Option<string>>)
    ensures forall id :: id in d <==> exists r :: r in rows && r.id == id
    ensures forall id :: id in d ==> exists r :: r in rows && r.id == id && d[id] == r.data.typeName
    decreases |rows|
  {
    if |rows| == 0 then map[]
    else
      var init := rows[..|rows| - 1];
      var last := rows[|rows| - 1];
      assert rows == init + [last];
      CategoryDict(init)[last.id := last.data.typeName]
  }

  /** `get_category_list`: the dict from every category's key to its type. */
  function GetCategoryList(s: Store): (d: map<int, Option<string>>)
    ensures d.Keys == s.categories.Keys
    ensures forall id :: id in d ==> d[id] == s.categories[id].typeName
  {
    var rows := Rows(s.categories);
    var d := CategoryDict(rows);
    assert forall id :: id in s.categories ==> Row(id, s.categories[id]) in rows;
    d
  }

  /** `getCategory(id)`: the `type` entry of the category's `format()`;
      `None` is the `abort(404)` for a missing category. */
  function GetCategory(s: Store, id: int): (r: Option<Json>)
    ensures r.Some? <==> id in s.categories
    ensures r.Some? ==> r.value == TextValue(s.categories[id].typeName)
  {
    match Find(s.categories, id)
    case None => None
    case Some(c) =>
      var formatted := FormatCategory(c);
      MemberAt(formatted.members, 1);
      Some(Member(formatted.members, "type"))
  }

  /* ---------- GET /questions ---------- */

  /** `getquestions`: a page of the id-ordered questions, 404 when it is empty. */
  function GetQuestions(s: Store, page: Option<int>): (r: Step)
    ensures r.store == s
    ensures r.response.Abort? <==> Paginate(PageArg(page), Rows(s.questions)) == []
    ensures r.response.Abort? ==> r.response.code == 404
    ensures !r.response.Abort? ==>
              && r.response.QuestionPage?
              && r.response.questions == Paginate(PageArg(page), Rows(s.questions))
              && r.response.totalQuestions == |s.questions|
              && r.response.categories.Keys == s.categories.Keys
              && forall id :: id in s.categories ==> r.response.categories[id] == s.categories[id].typeName
  {
    var current := Paginate(PageArg(page), Rows(s.questions));
    if |current| == 0 then Step(Abort(404), s)
    else Step(QuestionPage(current, |Rows(s.questions)|, GetCategoryList(s)), s)
  }

  /** For a page `p >= 1`: past the last page the answer is 404; otherwise it is
      that page, and the total is the full question count whatever the page. */
  lemma GetQuestionsByPage(s: Store, p: int)
    requires p >= 1
    ensures (p - 1) * QuestionsPerPage >= |s.questions| ==> GetQuestions(s, Some(p)).response == Abort(404)
    ensures (p - 1) * QuestionsPerPage < |s.questions| ==>
              var r := GetQuestions(s, Some(p)).response;
              r.QuestionPage? && r.totalQuestions == |s.questions| &&
              |r.questions| == (if p * QuestionsPerPage < |s.questions| then QuestionsPerPage
                                else |s.questions| - (p - 1) * QuestionsPerPage)
  {
    PageWindow(p, Rows(s.questions));
  }

  /* ---------- DELETE /questions/<id> ---------- */

  /** `delete_question`. The `abort(404)` for a missing question is raised inside
      the `try`, and `except BaseException` turns it into 422. */
  function DeleteQuestion(s: Store, id: int): (r: Step)
    ensures r.store.categories == s.categories
    ensures id in s.questions ==>
              && r.response == QuestionDeleted
              && r.store.questions.Keys == s.questions.Keys - {id}
              && forall k :: k in r.store.questions ==> r.store.questions[k] == s.questions[k]
    ensures id !in s.questions ==> r == Step(Abort(422), s)
  {
    var attempt :=
      match Find(s.questions, id)
      case None => Raised
      case Some(q) => Completed(Step(QuestionDeleted, s.(questions := Delete(s.questions, q.id))));
    ExceptAll(attempt, s, 422)
  }

  /* ---------- POST /questions ---------- */

  /** The JSON body of `POST /questions`; an absent key is `None`. */
  datatype QuestionRequest = QuestionRequest(
    question: Option<string>,
    answer: Option<string>,
    difficulty: Option<int>,
    category: Option<int>,
    rating: Option<int>,
    searchTerm: Option<string>)

  /** `Question.question.ilike('%term%')`: a NULL question text matches nothing. */
  predicate Matches(q: Question, term: string) {
    q.data.question.Some? && ILike(q.data.question.value, term)
  }

  /** The id-ordered questions matching the search term. */
  function SearchHits(s: Store, term: string): seq<Question> {
    Filter(Rows(s.questions), q => Matches(q, term))
  }

  /** The search branch of `add_question`: a page of the matches and their count. */
  function SearchQuestions(s: Store, term: string, page: Option<int>): (r: Step)
    ensures r.store == s
    ensures r.response.SearchResults?
    ensures r.response.totalQuestions == |Select(s.questions, q => Matches(q, term))|
    ensures |r.response.questions| <= QuestionsPerPage
    ensures r.response.questions == Paginate(PageArg(page), SearchHits(s, term))
    ensures forall k :: 0 <= k < |r.response.questions| ==>
              FormatsStored(s.questions, q => Matches(q, term), r.response.questions[k])
  {
    var hits := SearchHits(s, term);
    FilterRowsIsRowsOfSelect(s.questions, q => Matches(q, term));
    PageEntriesStored(s.questions, hits, PageArg(page), q => Matches(q, term));
    Step(SearchResults(Paginate(PageArg(page), hits), |hits|), s)
  }

  /** A search that matches nothing answers 200 with no questions and a total of 0. */
  lemma SearchWithoutMatches(s: Store, term: string, page: Option<int>)
    requires forall id :: id in s.questions ==> !Matches(Row(id, s.questions[id]), term)
    ensures SearchQuestions(s, term, page).response == SearchResults([], 0)
  {
    var hits := SearchHits(s, term);
    assert Select(s.questions, q => Matches(q, term)) == map[];
    FilterRowsIsRowsOfSelect(s.questions, q => Matches(q, term));
  }

  /** Every matching question is found: if it is match `i` of the id-ordered
      matches, it is entry `i % 10` of the search results for page `i / 10 + 1`. */
  lemma SearchFindsEveryMatch(s: Store, term: string, q: Question) returns (i: int, page: int)
    requires Stored(s.questions, q) && Matches(q, term)
    ensures 0 <= i < |SearchHits(s, term)| && SearchHits(s, term)[i] == q
    ensures page == i / QuestionsPerPage + 1
    ensures var found := SearchQuestions(s, term, Some(page)).response.questions;
            i % QuestionsPerPage < |found| && found[i % QuestionsPerPage] == FormatQuestion(q)
  {
    var hits := SearchHits(s, term);
    assert q in hits;
    i :| 0 <= i < |hits| && hits[i] == q;
    EveryQuestionOnItsPage(hits, i);
    page := i / QuestionsPerPage + 1;
  }

  /** The insert branch of `add_question`: `Question(...)` then `insert()`. A key
      the table already holds makes the commit raise, which the `try` turns into 422. */
  function CreateQuestion(s: Store, req: QuestionRequest, page: Option<int>, freshId: int): (r: Step)
    ensures freshId in s.questions ==> r == Step(Abort(422), s)
    ensures freshId !in s.questions ==>
              && r.response.QuestionCreated?
              && r.response.created == freshId
              && r.response.totalQuestions == |s.questions| + 1
              && r.response.questions == Paginate(PageArg(page), Rows(r.store.questions))
              && r.store.categories == s.categories
              && r.store.questions.Keys == s.questions.Keys + {freshId}
              && r.store.questions[freshId] == QuestionFields(req.question, req.answer, req.category, req.difficulty, req.rating)
              && forall k :: k in s.questions ==> r.store.questions[k] == s.questions[k]
  {
    var attempt :=
      if freshId in s.questions then Raised
      else
        var fields := QuestionFields(req.question, req.answer, req.category, req.difficulty, req.rating);
        var questions := Insert(s.questions, Row(freshId, fields));
        var all := Rows(questions);
        Completed(Step(QuestionCreated(freshId, Paginate(PageArg(page), all), |all|), s.(questions := questions)));
    ExceptAll(attempt, s, 422)
  }

  /** `add_question`: a truthy `searchTerm` searches; anything else creates a question. */
  function AddQuestion(s: Store, req: QuestionRequest, page: Option<int>, freshId: int): (r: Step)
    ensures Truthy(req.searchTerm) ==>
              && r.store == s
              && r.response.SearchResults?
              && r.response.questions == Paginate(PageArg(page), SearchHits(s, req.searchTerm.value))
              && r.response.totalQuestions == |Select(s.questions, q => Matches(q, req.searchTerm.value))|
    ensures !Truthy(req.searchTerm) ==> r.response.QuestionCreated? || r.response == Abort(422)
    ensures !Truthy(req.searchTerm) && freshId in s.questions ==> r == Step(Abort(422), s)
    ensures !Truthy(req.searchTerm) && freshId !in s.questions ==>
              && r.response.QuestionCreated?
              && r.response.created == freshId
              && r.store.questions.Keys == s.questions.Keys + {freshId}
              && r.store.questions[freshId] == QuestionFields(req.question, req.answer, req.category, req.difficulty, req.rating)
  {
    if Truthy(req.searchTerm) then SearchQuestions(s, req.searchTerm.value, page)
    else CreateQuestion(s, req, page, freshId)
  }

  /** Deleting the question just created restores the store. */
  lemma DeleteUndoesCreate(s: Store, req: QuestionRequest, page: Option<int>, freshId: int)
    requires freshId !in s.questions
    ensures DeleteQuestion(CreateQuestion(s, req, page, freshId).store, freshId) == Step(QuestionDeleted, s)
  {
    var s' := CreateQuestion(s, req, page, freshId).store;
    assert Delete(s'.questions, freshId) == s.questions;
  }

  /** The created question's `format()` reports the new key and the request's fields. */
  lemma CreatedQuestionFormat(s: Store, req: QuestionRequest, page: Option<int>, freshId: int)
    requires freshId !in s.questions
    ensures var stored := CreateQuestion(s, req, page, freshId).store.questions;
            ParseQuestion(FormatQuestion(Row(freshId, stored[freshId]))) ==
              Some(Row(freshId, QuestionFields(req.question, req.answer, req.category, req.difficulty, req.rating)))
  {
    var stored := CreateQuestion(s, req, page, freshId).store.questions;
    FormatQuestionRoundTrip(Row(freshId, stored[freshId]));
  }

  /* ---------- GET /categories/<id>/questions ---------- */

  predicate InCategory(q: Question, category: int) {
    q.data.category == Some(category)
  }

  /** The id-ordered questions of a category. */
  function CategoryQuestions(s: Store, category: int): seq<Question> {
    Filter(Rows(s.questions), q => InCategory(q, category))
  }

  /** `get_questions_by_category`: 404 when the page of the category's questions
      is empty, and 404 from `getCategory` when the category does not exist. */
  function QuestionsByCategory(s: Store, category: int, page: Option<int>): (r: Step)
    ensures r.store == s
    ensures r.response.Abort? ==> r.response.code == 404
    ensures r.response.Abort? <==>
              category !in s.categories || Paginate(PageArg(page), CategoryQuestions(s, category)) == []
    ensures !r.response.Abort? ==>
              && r.response.CategoryPage?
              && r.response.questions == Paginate(PageArg(page), CategoryQuestions(s, category))
              && category in s.categories
              && r.response.currentCategory == TextValue(s.categories[category].typeName)
              && r.response.totalQuestions == |Select(s.questions, q => InCategory(q, category))|
              && 0 < |r.response.questions| <= QuestionsPerPage
              && forall k :: 0 <= k < |r.response.questions| ==>
                   FormatsStored(s.questions, q => InCategory(q, category), r.response.questions[k])
    ensures category !in s.categories ==> r.response == Abort(404)
  {
    var inCategory := Filter(Rows(s.questions), q => InCategory(q, category));
    FilterRowsIsRowsOfSelect(s.questions, q => InCategory(q, category));
    PageEntriesStored(s.questions, inCategory, PageArg(page), q => InCategory(q, category));
    var current := Paginate(PageArg(page), inCategory);
    if |current| == 0 then Step(Abort(404), s)
    else
      match GetCategory(s, category)
      case None => Step(Abort(404), s)
      case Some(t) => Step(CategoryPage(current, |inCategory|, t), s)
  }

  /** Every question of an existing category is listed: if it is question `i` of
      the category's id-ordered questions, it is entry `i % 10` of page `i / 10 + 1`. */
  lemma CategoryListsEveryQuestion(s: Store, category: int, q: Question) returns (i: int, page: int)
    requires category in s.categories
    requires Stored(s.questions, q) && InCategory(q, category)
    ensures 0 <= i < |CategoryQuestions(s, category)| && CategoryQuestions(s, category)[i] == q
    ensures page == i / QuestionsPerPage + 1
    ensures QuestionsByCategory(s, category, Some(page)).response.CategoryPage?
    ensures var listed := QuestionsByCategory(s, category, Some(page)).response.questions;
            i % QuestionsPerPage < |listed| && listed[i % QuestionsPerPage] == FormatQuestion(q)
  {
    var inCategory := CategoryQuestions(s, category);
    assert q in inCategory;
    i :| 0 <= i < |inCategory| && inCategory[i] == q;
    EveryQuestionOnItsPage(inCategory, i);
    page := i / QuestionsPerPage + 1;
  }

  /* ---------- POST /quizzes ---------- */

  /** Python's `a & b` on natural numbers. */
  function BitAnd(a: nat, b: nat): (r: nat)
    ensures r <= a && r <= b
    decreases a
  {
    if a == 0 || b == 0 then 0
    else 2 * BitAnd(a / 2, b / 2) + (if a % 2 == 1 && b % 2 == 1 then 1 else 0)
  }

  /** `int(id) == 0 & len(previous_questions) == 0`. `&` binds tighter than
      `==`, so Python reads the chained comparison `id == (0 & n) and (0 & n) == 0`. */
  predicate AllCategoriesTest(id: int, previousCount: nat) {
    var masked := BitAnd(0, previousCount);
    id == masked && masked == 0
  }

  /** The test reduces to `id == 0`: the count of previous questions plays no part. */
  lemma AllCategoriesTestIsIdZero(id: int, previousCount: nat)
    ensures AllCategoriesTest(id, previousCount) <==> id == 0
  {
  }

  /** The `questions` of `play_quiz`: all questions when the test holds, the
      category's questions when the id is not 0, and `None` when neither branch
      assigns the variable (reading it would then raise). */
  function QuizPool(s: Store, id: int, previous: seq<int>): (pool: Option<seq<Question>>)
    ensures pool.Some?
    ensures id == 0 ==> pool.value == Rows(s.questions)
    ensures id != 0 ==> forall q :: q in pool.value <==> Stored(s.questions, q) && InCategory(q, id)
  {
    AllCategoriesTestIsIdZero(id, |previous|);
    if AllCategoriesTest(id, |previous|) then Some(Rows(s.questions))
    else if id != 0 then Some(Filter(Rows(s.questions), q => InCategory(q, id)))
    else None
  }

  /** The pool's questions whose ids are not among the previous questions. */
  function Unseen(pool: seq<Question>, previous: seq<int>): (r: seq<Question>)
    ensures forall q :: q in r <==> q in pool && q.id !in previous
  {
    Filter(pool, (q: Question) => q.id !in previous)
  }

  /** The part of `play_quiz` after the pool is known: an empty pool raises
      (its `abort(422)` is caught and re-raised as 422); otherwise one of the unseen
      questions, or `success: false` when there is none. */
  function ChooseUnseen(s: Store, pool: seq<Question>, previous: seq<int>, pick: nat): (a: Attempt)
    ensures a.Completed? ==> a.step.store == s
    ensures a.Completed? && a.step.response.QuizQuestion? ==>
              exists q :: q in pool && q.id !in previous && a.step.response.question == FormatQuestion(q)
    ensures a.Completed? ==> a.step.response.QuizQuestion? || a.step.response.QuizExhausted?
  {
    if |pool| == 0 then Raised
    else
      var selected := Unseen(pool, previous);
      if |selected| == 0 then Completed(Step(QuizExhausted, s))
      else
        var q := selected[pick % |selected|];
        assert q in selected;
        Completed(Step(QuizQuestion(FormatQuestion(q)), s))
  }

  /** `play_quiz`. `pick` stands for `random.choice`: the question chosen is entry
      `pick % n` of the `n` unseen ones. `categoryId` is `None` when the body has
      no `quiz_category` or no id in it, which raises inside the `try`. */
  function PlayQuiz(s: Store, previous: seq<int>, categoryId: Option<int>, pick: nat): (r: Step)
    ensures r.store == s
    ensures r.response.Abort? ==> r.response.code == 422
    ensures r.response.QuizQuestion? || r.response.QuizExhausted? || r.response.Abort?
    ensures categoryId.None? ==> r.response == Abort(422)
    ensures r.response.QuizQuestion? ==>
              exists q :: Stored(s.questions, q) && q.id !in previous
                          && (categoryId.value != 0 ==> InCategory(q, categoryId.value))
                          && r.response.question == FormatQuestion(q)
  {
    var attempt :=
      match categoryId
      case None => Raised
      case Some(id) =>
        match QuizPool(s, id, previous)
        case None => Raised
        case Some(pool) => ChooseUnseen(s, pool, previous, pick);
    ExceptAll(attempt, s, 422)
  }

  /** With category id 0 the pool is every question, whatever the previous
      questions are; an empty pool answers 422; a pool that the previous
      questions cover entirely answers status 200 with `success: false`. */
  lemma QuizOutcomes(s: Store, previous: seq<int>, id: int, pick: nat)
    ensures QuizPool(s, id, previous) == QuizPool(s, id, [])
    ensures id == 0 ==> QuizPool(s, id, previous).value == Rows(s.questions)
    ensures |QuizPool(s, id, previous).value| == 0 ==> PlayQuiz(s, previous, Some(id), pick).response == Abort(422)
    ensures var pool := QuizPool(s, id, previous).value;
            |pool| > 0 ==>
              (PlayQuiz(s, previous, Some(id), pick).response == QuizExhausted <==>
               forall q :: q in pool ==> q.id in previous)
    ensures var pool := QuizPool(s, id, previous).value;
            var r := PlayQuiz(s, previous, Some(id), pick).response;
            |pool| > 0 ==>
              && r.Status() == 200
              && (!r.Success() <==> forall q :: q in pool ==> q.id in previous)
  {
    var pool := QuizPool(s, id, previous).value;
    var selected := Unseen(pool, previous);
    assert |selected| > 0 ==> selected[0] in selected;
    assert PlayQuiz(s, previous, Some(id), pick) == ExceptAll(ChooseUnseen(s, pool, previous, pick), s, 422);
  }

  /** Once the pool is known, each of its unseen questions is the choice for
      the `pick` equal to its place among the unseen ones. */
  lemma ChooseUnseenCanReturn(s: Store, pool: seq<Question>, previous: seq<int>, q: Question) returns (pick: nat)
    requires q in pool && q.id !in previous
    ensures ChooseUnseen(s, pool, previous, pick) == Completed(Step(QuizQuestion(FormatQuestion(q)), s))
  {
    var selected := Unseen(pool, previous);
    assert q in selected;
    var i :| 0 <= i < |selected| && selected[i] == q;
    pick := i;
    assert |pool| > 0 by {
      assert q in pool;
    }
    assert pick % |selected| == i by {
      ModBelowDivisor(i, |selected|);
    }
  }

  /** Kept apart so that the solver meets `%` with a symbolic divisor in a small context. */
  lemma ModBelowDivisor(i: nat, n: nat)
    requires i < n
    ensures i % n == i
  {
  }

  /** Any unseen question of the pool can be the one returned. */
  lemma QuizCanReturnAnyUnseen(s: Store, previous: seq<int>, id: int, q: Question)
    requires q in QuizPool(s, id, previous).value && q.id !in previous
    ensures exists pick: nat :: PlayQuiz(s, previous, Some(id), pick).response == QuizQuestion(FormatQuestion(q))
  {
    var pool := QuizPool(s, id, previous).value;
    var pick := ChooseUnseenCanReturn(s, pool, previous, q);
    assert PlayQuiz(s, previous, Some(id), pick) == ExceptAll(ChooseUnseen(s, pool, previous, pick), s, 422);
  }

  /* ---------- POST /categories ---------- */

  function FormatAllCategories(cs: seq<Category>): (js: seq<Json>)
    ensures |js| == |cs|
  {
    seq(|cs|, k requires 0 <= k < |cs| => FormatCategory(cs[k]))
  }

  lemma FormattedCategoryListed(cs: seq<Category>, c: Category)
    requires c in cs
    ensures FormatCategory(c) in FormatAllCategories(cs)
  {
    var i :| 0 <= i < |cs| && cs[i] == c;
    assert FormatAllCategories(cs)[i] == FormatCategory(c);
  }

  /** The `try` block of `add_category` when the commit succeeds. */
  function InsertCategory(s: Store, c: Category): (a: Attempt)
    requires c.id !in s.categories
    ensures a.Completed? && a.step.response.CategoryCreated?
    ensures forall x :: Stored(Insert(s.categories, c), x) ==> FormatCategory(x) in a.step.response.categoryList
    ensures a.step.response.categoryList == FormatAllCategories(Rows(Insert(s.categories, c)))
  {
    var categories := Insert(s.categories, c);
    var all := Rows(categories);
    forall x | Stored(categories, x)
      ensures FormatCategory(x) in FormatAllCategories(all)
    {
      FormattedCategoryListed(all, x);
    }
    Completed(Step(CategoryCreated(c.id, FormatAllCategories(all), |all|), s.(categories := categories)))
  }

  /** `add_category`: `Category(type)` then `insert()`; a key the table already
      holds makes the commit raise, which the `try` turns into 422. */
  function AddCategory(s: Store, typeName: Option<string>, freshId: int): (r: Step)
    ensures freshId in s.categories ==> r == Step(Abort(422), s)
    ensures freshId !in s.categories ==>
              && r.response.CategoryCreated?
              && r.response.created == freshId
              && r.response.totalCategories == |s.categories| + 1
              && |r.response.categoryList| == |s.categories| + 1
              && FormatCategory(Row(freshId, CategoryFields(typeName))) in r.response.categoryList
              && (forall c :: Stored(r.store.categories, c) ==> FormatCategory(c) in r.response.categoryList)
              && r.response.categoryList == FormatAllCategories(Rows(r.store.categories))
              && r.store.questions == s.questions
              && r.store.categories.Keys == s.categories.Keys + {freshId}
              && r.store.categories[freshId] == CategoryFields(typeName)
              && forall k :: k in s.categories ==> r.store.categories[k] == s.categories[k]
  {
    var attempt :=
      if freshId in s.categories then Raised
      else InsertCategory(s, Row(freshId, CategoryFields(typeName)));
    ExceptAll(attempt, s, 422)
  }

  /** A category just added is what `getCategory` and `get_category_list` report
      for its key. */
  lemma AddedCategoryIsListed(s: Store, typeName: Option<string>, freshId: int)
    requires freshId !in s.categories
    ensures var after := AddCategory(s, typeName, freshId).store;
            && GetCategory(after, freshId) == Some(TextValue(typeName))
            && freshId in GetCategoryList(after)
            && GetCategoryList(after)[freshId] == typeName
  {
  }

  /** The category's `format()` after `Category(type)` and `insert()` reads back
      as the new key with the request's type verbatim. */
  lemma CreatedCategoryFormat(s: Store, typeName: Option<string>, freshId: int)
    requires freshId !in s.categories
    ensures var stored := AddCategory(s, typeName, freshId).store.categories;
            ParseCategory(FormatCategory(Row(freshId, stored[freshId]))) == Some(Row(freshId, CategoryFields(typeName)))
  {
    var stored := AddCategory(s, typeName, freshId).store.categories;
    FormatCategoryRoundTrip(Row(freshId, stored[freshId]));
  }
}

=== FILE: wrappers.dfy ===
/** Optional values: Python's `None` next to a present value. */
module Wrappers {

  datatype Option<+T> = None | Some(value: T) {

    /** The value, or `default` when absent (the `dict.get(key, default)` idiom). */
    function GetOr(default: T): T {
      match this
      case Some(v) => v
      case None => default
    }
  }
}
